=== FILE: README.md ===
# ConTools console helpers, modelled in Dafny

`kasthack.Tools.ConTools` is a static class of console conveniences:

- `ColorWrite` writes text in a requested colour pair and then restores the colours the console had before.
- `ColorWriteLine`, `WriteMessage`, `WriteError` and `WriteQuestion` are fixed-colour aliases of `ColorWrite`.
- `ReadLine` is a Python-style prompted read, with an optional default shown in brackets.
- `ReadInt` is `ReadLine` followed by a trim and an integer parse.
- `ReadValidT<T>` asks until a line converts to `T` and passes a validator, complaining in red after every rejected line.
- `Dump<T>` prints a value and, recursively, every non-null element of an enumerable.

The model replaces `System.Console` with one immutable record, `ConsoleState.Console`. The record holds:

- the current foreground and background colours;
- the output so far, as a sequence of `Chunk`s, one per `Console.Write`, each carrying the colours in force when it was written;
- the lines still to be read, where an empty sequence is a stream at its end.

Every helper is a pure function from one console to the next. Each helper that reads returns a `Read` pair: the value and the console afterwards.

Modules, in dependency order:

- `Wrappers`: `Option` and `Result`.
- `ConsoleState`: the console record, its primitives (set a colour, write, write a line, read a line), and `Text`, which is the output with the colours forgotten.
- `ColorOutput`: `ColorWrite` as the three stages of the source (switch, write, restore) and the four aliases.
- `TextFormat`: `String.Trim` with .NET's white-space set, the `Int32` rendering that a boxed `int?` default turns into (fixed to the invariant culture), and an `Int32.Parse` for trimmed text.
- `Prompting`: the question format and its inverse, `ReadLine` and `ReadInt`.
- `ReadValid`: one round of the retry loop (`Attempt`), `ReadValidT`, and the reference `FirstAccepted` it is measured against.
- `Dumping`: values as finite trees, `Dump`, and the reference pre-order listing `Lines`.
- `Scenarios`: particular inputs and their outcomes.

## Model

| member | source | states |
|---|---|---|
| ColorOutput.SwitchColors | src/ConTools.cs:94-97 | Switching (each colour only if it differs) leaves the console in exactly the requested colours, with nothing else changed |
| ColorOutput.Emit | src/ConTools.cs:99-101 | The text is appended in the current colours, then the line terminator as a separate write iff `newline` |
| ColorOutput.RestoreColors | src/ConTools.cs:103-106 | Restoring only the switched colours gives back exactly the saved pair |
| ColorOutput.ColorWrite | src/ConTools.cs:91-107 | Colour-neutral: the colours afterwards are those before. The only change is the text (and the terminator iff `newline`) appended in the requested colours |
| ColorOutput.SkippedSwitchIsOptimisation | src/ConTools.cs:94-106 | Skipping a switch to an equal colour gives the same console as switching and restoring unconditionally |
| ColorOutput.ColorWriteAppends | src/ConTools.cs:99-101 | Earlier output is kept and the input untouched; the visible text grows by exactly `str` (plus the newline iff requested); every appended write is in the requested colours |
| ColorOutput.ConsecutiveWrites | src/ConTools.cs:91-107 | Two coloured writes in a row append both writes in order, whatever colours the first used |
| ColorOutput.ColorWriteLine | src/ConTools.cs:115-117 | Appends the text and then the line terminator, both in the given colours |
| ColorOutput.WriteMessage | src/ConTools.cs:124-126 | A gray-on-black coloured write; colours and input unchanged |
| ColorOutput.WriteError | src/ConTools.cs:132-134 | A red-on-black coloured write; colours and input unchanged |
| ColorOutput.WriteQuestion | src/ConTools.cs:142-144 | A yellow-on-black coloured write of `str + prompt`; colours and input unchanged |
| Prompting.PromptText | src/ConTools.cs:32-34 | The question starts with `str` and ends with `prompt`, separated by exactly one space without a default, or by " [", the default's text and "]" with one (the lengths fix which); `ShownDefaultOfPrompt` is its inverse |
| Prompting.ShownDefaultOfPrompt | src/ConTools.cs:32-34 | Parsing the question back recovers exactly the default it shows, or "none shown" |
| Prompting.PromptOfShownDefault | src/ConTools.cs:32-34 | Every text accepted by the inverse parser is the question for the default it reports |
| Prompting.PromptTextInjective | src/ConTools.cs:32-34 | Different defaults (or default versus none) always give different questions |
| Prompting.ReadLine | src/ConTools.cs:31-40 | The question is the only output, in the given colours; colours are restored; exactly one line is consumed if there is one; the default is returned iff the line is empty and a default exists, otherwise the line as read; end of stream gives `None` |
| Prompting.ReadLineWithoutDefault | src/ConTools.cs:36-39 | Without a default, the result is the raw line read |
| Prompting.ReadLineDefaultNeverEmpty | src/ConTools.cs:37-38 | With a non-empty default, the empty string is never returned |
| Prompting.DefaultText | src/ConTools.cs:52-53 | A default `int?` is shown iff it is present |
| Prompting.ReadInt | src/ConTools.cs:52-54 | Same console effect as `ReadLine` with the default's text. Fails with `EndOfInput` iff the stream had ended, and with `BadFormat` iff the trimmed line does not parse. Otherwise it gives the parsed value |
| Prompting.ReadIntEmptyLineGivesDefault | src/ConTools.cs:52-54 | An empty line at a `ReadInt` with a 32-bit default yields that default, consuming one line |
| Prompting.ReadIntIgnoresPadding | src/ConTools.cs:53 | White space around the typed text does not change the result |
| TextFormat.LeadingWhite | src/ConTools.cs:53 | Counts the maximal white-space prefix |
| TextFormat.TrailingWhite | src/ConTools.cs:53 | Counts the maximal white-space suffix |
| TextFormat.Trim | src/ConTools.cs:53 | The result has no white space at either end and is no longer than the input |
| TextFormat.TrimOfPadded | src/ConTools.cs:53 | Trimming white space, text and white space gives the text back (the empty string if the text is empty) |
| TextFormat.TrimAllWhite | src/ConTools.cs:53 | A line of white space alone trims to the empty string |
| TextFormat.TrimIdempotent | src/ConTools.cs:53 | Trimming twice is trimming once |
| TextFormat.FormatNat | src/ConTools.cs:34 | The decimal rendering is a non-empty string of digits with no leading zero (only 0 renders starting with '0') |
| TextFormat.FormatInt | src/ConTools.cs:34 | Non-empty, starts with a minus sign iff the number is negative, and canonical: no leading zero after the sign, and never "-0" |
| TextFormat.FormatIntTrimmed | src/ConTools.cs:38 | The rendering of a default has no surrounding white space |
| TextFormat.ParseInt32 | src/ConTools.cs:53 | A success is within 32-bit range and comes from non-empty text |
| TextFormat.DigitsOfFormatNat | src/ConTools.cs:34 | The digits of a rendering have the rendered value |
| TextFormat.ParseFormatRoundTrip | src/ConTools.cs:53 | Parsing the rendering of any 32-bit integer gives the integer back |
| TextFormat.FormatOfDigits | src/ConTools.cs:53 | Digits without a leading zero (or "0") are exactly the rendering of their value |
| TextFormat.ParseCanonicalRoundTrip | src/ConTools.cs:53 | A canonical text that parses, parses to the integer whose rendering it is: the reverse round trip |
| TextFormat.ParseLeadingZero | src/ConTools.cs:53 | A zero digit after the optional sign does not change the parse, success or failure |
| TextFormat.ParsePlusSign | src/ConTools.cs:53 | A leading plus sign does not change the parse |
| TextFormat.ParseNegativeZero | src/ConTools.cs:53 | "-0" parses as zero |
| ReadValid.Passes | src/ConTools.cs:66-67 | A missing validator is the source's `a => true`: every value passes |
| ReadValid.FirstAccepted | src/ConTools.cs:72-81 | Reference: the index of the first line that converts and passes, with all earlier lines rejected; or `None` with all lines rejected |
| ReadValid.Attempt | src/ConTools.cs:72-80 | One round. At end of stream only the question is written. An accepted line yields its value and consumes one line. A rejected line consumes one line and writes the question, then the error message in red on its own line |
| ReadValid.ReadValidT | src/ConTools.cs:65-82 | Colours are restored however many rounds run; any returned value passes the validator |
| ReadValid.ReadValidTFirstAccepted | src/ConTools.cs:72-81 | Returns the conversion of the first accepted line, after one rejected round per earlier line, consuming exactly the lines up to it. With no accepted line: `None`, all input consumed, every line rejected |
| ReadValid.RejectedRoundShifts | src/ConTools.cs:79-80 | A rejected first line shifts the expected outcome by one round |
| ReadValid.NoValidatorTakesFirstConvertible | src/ConTools.cs:66-67 | Without a validator, the first line that converts at all is returned |
| ReadValid.NoneAccepted | src/ConTools.cs:72-81 | When every line is rejected there is no first accepted line |
| ReadValid.FirstAcceptedIsFirst | src/ConTools.cs:72-81 | An accepted line preceded only by rejected ones is the one found |
| ReadValid.FirstAcceptedExists | src/ConTools.cs:72-81 | There is a first accepted line iff some line is accepted |
| ReadValid.AttemptAsWritten | src/ConTools.cs:72-81 | The round as the source runs it, with null converted at end of stream. On any line that was read it agrees with the modelled round |
| ReadValid.RejectedAtEnd | src/ConTools.cs:74-80 | As written, a round at end of stream whose null conversion is rejected writes the question and the error, and leaves the input empty |
| ReadValid.SpinAsWritten | src/ConTools.cs:72-81 | `n` rounds of the loop as written, continuing while rounds are rejected: colours are restored and at most `n` lines are consumed; `EndOfStreamSpins` gives its exact outcome at end of stream |
| ReadValid.EndOfStreamSpins | src/ConTools.cs:72-81 | As written, on a closed input stream with a converter that rejects null, every number of rounds is still rejecting, with the question and error written that many times |
| ReadValid.EndOfStreamStops | src/ConTools.cs:72-81 | The modelled loop at end of stream writes the question once and returns `None` |
| Dumping.Dump | src/ConTools.cs:14-20 | A dump changes neither the colours nor the input |
| Dumping.DumpWritesLines | src/ConTools.cs:14-20 | A dump appends exactly the pre-order listing, one line per entry, in the current colours |
| Dumping.DumpItems | src/ConTools.cs:17-19 | The `foreach` over the elements from a position on, skipping nulls, leaves the colours and the input unchanged; `DumpItemsWritesLines` gives its exact output |
| Dumping.DumpItemsWritesLines | src/ConTools.cs:17-19 | The element loop appends the listings of the non-null elements in enumeration order |
| Dumping.ListingStartsWithValue | src/ConTools.cs:15 | Every listing starts with the value's own text |
| Dumping.NullNullableIsEmptyLine | src/ConTools.cs:15-16 | A value whose text is empty and that is not enumerable (a null `Nullable<T>`) appends exactly one empty line |
| Dumping.StringIsOneLine | src/ConTools.cs:16 | A string is printed whole on one line and never traversed |
| Dumping.NullElementIgnored | src/ConTools.cs:18 | Removing a null element does not change the listing |
| Dumping.AppendedElementListedLast | src/ConTools.cs:17-19 | An element appended to an enumerable adds its whole listing after everything listed before it (depth first) |
| Dumping.ItemLinesOfSuffix | src/ConTools.cs:17-19 | The listing from a position depends only on the elements from there on |
| Scenarios.PromptShapes | src/ConTools.cs:32-34 | `"Age [30]: "` with a default of 30, `"Age : "` without one |
| Scenarios.DefaultOnlyForEmptyLine | src/ConTools.cs:36-39 | An empty line gives the default "7" and consumes one line; a typed "9" is returned as is |
| Scenarios.ReadIntTrims | src/ConTools.cs:53 | `" 42 "` reads as 42 |
| Scenarios.ReadIntFails | src/ConTools.cs:53 | `"abc"` is a format error; an ended stream is an error too |
| Scenarios.RetryUntilPositive | src/ConTools.cs:72-81 | With input "-1", "abc", "5" and validator `v > 0`: 5 is returned after two rejected rounds, and all three lines are consumed |
| Scenarios.NestedListing | src/ConTools.cs:14-20 | A nested enumerable with a null element and a string element lists as outer, 1, inner, 2, 3, 45 |

## Left out

- The real `System.Console`: buffering, the terminal and the process-wide shared state are replaced by the pure record. `Environment.NewLine` is fixed to `"\n"`.
- Concurrency: nothing guards the colour save and restore against other threads, and the model is sequential.
- Exceptions thrown by `Console.Write` between the switch and the restore, which would leave the colours switched: the model's writes cannot fail.
- `TypeDescriptor.GetConverter` and the `FormatException` for a missing converter (src/ConTools.cs:68-71): the converter is the parameter `convert`, a partial function where `None` is a conversion that throws.
- The validator is a total, pure predicate. The source also catches an exception thrown by the validator and treats it as a rejection; such a validator cannot be written here.
- ReadValid.ReadValidT: ends with `None` when the input is exhausted, after writing one last question. The source hands the null read to the converter instead. When the converter rejects null (as the numeric ones do), the source loops forever writing errors on a closed (redirected) input stream (see Findings). When the converter turns null into a value the validator accepts, the source returns that value, while the model still returns `None`. `ReadValid.AttemptAsWritten` models the source's round, null conversion included, one round at a time.
- ConsoleState.ReadRaw: a stream that has returned null stays at its end, as a closed redirected input (a file or a pipe) does. An interactive console can return null (Ctrl+Z on Windows, Ctrl+D on Unix, on an empty line) and then further lines; the model's `input: seq<string>` cannot express that, so every statement about the end of the stream, `ReadValid.EndOfStreamSpins` included, is about a closed stream.
- ReadValid.Attempt: at the end of the stream the round writes only the question and reports `Exhausted`. The source's round at src/ConTools.cs:74-80 passes the null read to the converter and, on rejection, also writes the error message; `ReadValid.AttemptAsWritten` is that round.
- Prompting.ReadInt: the parser is a parameter. `TextFormat.ParseInt32` stands for the invariant-culture `int.Parse` on already-trimmed text (optional sign, decimal digits, 32-bit range). It does not model culture-specific signs, thousands separators, the other `NumberStyles`, or trailing NUL characters: `Int32.Parse` accepts a tail of `'\0'`, which `Trim` keeps because NUL is not white space, so the source reads "5\0" as 5 where the model reports `BadFormat`.
- Prompting.ReadLine: the default is given as its `ToString()` text (`Option<string>`). Any object's rendering is out of scope; `ReadInt` supplies the decimal rendering of its `int?`.
- A `null` `str` or `prompt` argument: `string.Format`, string concatenation and `Console.Write` all treat null as empty text, so a null `str` behaves as the empty string and is modelled by `""`.
- A `null` top-level `Dump` argument of a reference type: `t.ToString()` at src/ConTools.cs:15 throws `NullReferenceException`, and the model has no null references. A null `Nullable<T>` does not throw: its `ToString()` is the empty text and it is not enumerable, so it prints one empty line, which `Leaf("")` models (`Dumping.NullNullableIsEmptyLine`). A null element inside an enumerable is modelled as `None` and skipped.
- Dumping.Dump: values are finite trees, so a container that contains itself (which recurses without end in the source) cannot be built. `ToString()` of a non-string value is its stored text.
- TextFormat.ParseInt32: its own contract only bounds a success. Which integer a text stands for is stated by lemmas: `ParseCanonicalRoundTrip` for canonical text, and `ParseLeadingZero`, `ParsePlusSign` and `ParseNegativeZero`, which reduce every other accepted text to a canonical one.
- TextFormat.FormatInt: the rendering of a `ReadInt` default is fixed to the invariant culture (ASCII digits, `-` as the negative sign). The source renders it with `string.Format` at src/ConTools.cs:34 and `ToString()` at src/ConTools.cs:38 in the current culture, whose negative sign may differ.
- ColorOutput.WriteQuestion: the source's documentation says red on black, but the code writes yellow on black; the model follows the code.

## Findings

| source | as written | input that shows it | evidently intended | confidence | as-written member | corrected member |
|---|---|---|---|---|---|---|
| src/ConTools.cs:72-81 | On a closed (redirected) input stream `Console.ReadLine()` returns null on every call and the loop hands it to the converter. When that conversion fails, the error is written and the loop repeats with the stream still closed, so it never returns | `ReadValidT<int>` with the input stream already closed: the int converter rejects null every time | Stop the loop (return or fail) once the stream has ended | medium (the outcome depends on the converter rejecting null); not executed | ReadValid.EndOfStreamSpins | ReadValid.EndOfStreamStops |

=== FILE: color_output.dfy ===
/** Coloured output: `ColorWrite` and its four fixed-colour aliases.

    `ColorWrite` is a small state machine over the colour pair: remember the
    current colours, switch to the requested ones (skipping a switch that
    would change nothing), write, and switch back. Its contract is
    colour-neutrality: the caller sees the colours it had before. */
module ColorOutput {
  import opened ConsoleState

  /** What a coloured write appends: the text, then (iff `newline`) the line
      terminator written by a separate `Console.WriteLine()`. */
  function Written(str: string, newline: bool, fg: Color, bg: Color): seq<Chunk>
  {
    if newline then [Chunk(str, fg, bg), Chunk(NewLine, fg, bg)] else [Chunk(str, fg, bg)]
  }

  /** The first stage of `ColorWrite`: switch each colour that differs
      from the requested one. */
  function SwitchColors(c: Console, fg: Color, bg: Color): (r: Console)
    ensures r == c.(fg := fg, bg := bg)
  {
    var c1 := if c.fg != fg then SetForeground(c, fg) else c;
    if c1.bg != bg then SetBackground(c1, bg) else c1
  }

  /** The second stage: write the text and, iff `newline`, end the line. */
  function Emit(c: Console, str: string, newline: bool): (r: Console)
    ensures r == c.(output := c.output + Written(str, newline, c.fg, c.bg))
  {
    var c1 := Write(c, str);
    if newline then WriteNewLine(c1) else c1
  }

  /** The last stage: put back the saved colours `f`/`b`, touching only
      those that were switched away from the requested `fg`/`bg`. */
  function RestoreColors(c: Console, f: Color, b: Color, fg: Color, bg: Color): (r: Console)
    requires c.fg == fg && c.bg == bg
    ensures r == c.(fg := f, bg := b)
  {
    var c1 := if f != fg then SetForeground(c, f) else c;
    if b != bg then SetBackground(c1, b) else c1
  }

  /** `ColorWrite(str, foreColor, backColor, newline)`. */
  function ColorWrite(c: Console, str: string, fg: Color, bg: Color, newline: bool): (r: Console)
    // colour-neutral: whatever was requested, the colours come back
    ensures r.fg == c.fg && r.bg == c.bg
    // the write (and newline) is appended in the requested colours; nothing else changes
    ensures r == c.(output := c.output + Written(str, newline, fg, bg))
  {
    var f := c.fg;
    var b := c.bg;
    var shown := Emit(SwitchColors(c, fg, bg), str, newline);
    RestoreColors(shown, f, b, fg, bg)
  }

  /** The same write with every colour switch done unconditionally: the
      reference the skipping in `ColorWrite` must agree with. */
  function ColorWriteUnconditional(c: Console, str: string, fg: Color, bg: Color, newline: bool): (r: Console)
    ensures r.fg == c.fg && r.bg == c.bg && r.input == c.input
  {
    var c1 := SetBackground(SetForeground(c, fg), bg);
    var c2 := Write(c1, str);
    var c3 := if newline then WriteNewLine(c2) else c2;
    SetBackground(SetForeground(c3, c.fg), c.bg)
  }

  /** Skipping the switch when the colour already matches is only an
      optimisation: the outcome is the unconditional switch-write-restore. */
  lemma SkippedSwitchIsOptimisation(c: Console, str: string, fg: Color, bg: Color, newline: bool)
    ensures ColorWrite(c, str, fg, bg, newline) == ColorWriteUnconditional(c, str, fg, bg, newline)
  {
  }

  /** What `ColorWrite` shows: the earlier output is kept, exactly `str`
      (then the line terminator iff `newline`) follows, every appended write
      carries the requested colours, and the input is untouched. */
  lemma ColorWriteAppends(c: Console, str: string, fg: Color, bg: Color, newline: bool)
    ensures var r := ColorWrite(c, str, fg, bg, newline);
      && r.input == c.input
      && |r.output| > |c.output|
      && r.output[..|c.output|] == c.output
      && Text(r.output) == Text(c.output) + (if newline then str + NewLine else str)
      && AllIn(r.output[|c.output|..], fg, bg)
  {
    var r := ColorWrite(c, str, fg, bg, newline);
    var added := Written(str, newline, fg, bg);
    assert r.output[|c.output|..] == added;
    TextAppend(c.output, added);
    if newline {
      assert added == [Chunk(str, fg, bg)] + [Chunk(NewLine, fg, bg)];
      TextAppend([Chunk(str, fg, bg)], [Chunk(NewLine, fg, bg)]);
    }
  }

  /** Because each write restores the colours, consecutive writes are
      independent: their outputs simply follow each other, whatever colours
      the first one used. */
  lemma ConsecutiveWrites(c: Console, s1: string, fg1: Color, bg1: Color, n1: bool,
                          s2: string, fg2: Color, bg2: Color, n2: bool)
    ensures ColorWrite(ColorWrite(c, s1, fg1, bg1, n1), s2, fg2, bg2, n2)
            == c.(output := c.output + Written(s1, n1, fg1, bg1) + Written(s2, n2, fg2, bg2))
  {
  }

  /** `ColorWriteLine(str, foreColor, backColor)`: a coloured write ending the line. */
  function ColorWriteLine(c: Console, str: string, fg: Color, bg: Color): (r: Console)
    ensures r == c.(output := c.output + [Chunk(str, fg, bg), Chunk(NewLine, fg, bg)])
  {
    ColorWrite(c, str, fg, bg, true)
  }

  /** `WriteMessage(str, newline)`: gray on black. */
  function WriteMessage(c: Console, str: string, newline: bool): (r: Console)
    ensures r.fg == c.fg && r.bg == c.bg && r.input == c.input
    ensures r.output == c.output + Written(str, newline, Gray, Black)
  {
    ColorWrite(c, str, Gray, Black, newline)
  }

  /** `WriteError(str, newline)`: red on black. */
  function WriteError(c: Console, str: string, newline: bool): (r: Console)
    ensures r.fg == c.fg && r.bg == c.bg && r.input == c.input
    ensures r.output == c.output + Written(str, newline, Red, Black)
  {
    ColorWrite(c, str, Red, Black, newline)
  }

  /** `WriteQuestion(str, prompt, newline)`: the text followed by the prompt,
      yellow on black. */
  function WriteQuestion(c: Console, str: string, prompt: string, newline: bool): (r: Console)
    ensures r.fg == c.fg && r.bg == c.bg && r.input == c.input
    ensures r.output == c.output + Written(str + prompt, newline, Yellow, Black)
  {
    ColorWrite(c, str + prompt, Yellow, Black, newline)
  }
}

=== FILE: console_state.dfy ===
/** The console as a pure value.

    The real program talks to the process-wide `System.Console`: a current
    foreground/background colour pair, an output stream and an input stream.
    Here that state is one immutable record, and every console primitive the
    helpers use is a function from one state to the next. */
module ConsoleState {
  import opened Wrappers

  /** The sixteen colours of `System.ConsoleColor`. */
  datatype Color =
    | Black | DarkBlue | DarkGreen | DarkCyan | DarkRed | DarkMagenta | DarkYellow | Gray
    | DarkGray | Blue | Green | Cyan | Red | Magenta | Yellow | White

  /** The text of one write to the output stream, with the colours that were
      in force when it was written. */
  datatype Chunk = Chunk(text: string, fg: Color, bg: Color)

  /** The console: current colours, every write so far, and the lines still
      waiting to be read. An empty `input` is a stream at its end. */
  datatype Console = Console(fg: Color, bg: Color, output: seq<Chunk>, input: seq<string>)

  /** A value obtained from the console together with the console afterwards. */
  datatype Read<+T> = Read(value: T, console: Console)

  /** The line terminator `Console.WriteLine` appends (the platform newline). */
  const NewLine: string := "\n"

  /** The characters of a stretch of output, colours forgotten: what a
      reader of the terminal sees. */
  function Text(chunks: seq<Chunk>): string
  {
    if |chunks| == 0 then "" else Text(chunks[..|chunks| - 1]) + chunks[|chunks| - 1].text
  }

  /** The text of consecutive stretches of output is their texts in turn. */
  lemma {:induction false} TextAppend(a: seq<Chunk>, b: seq<Chunk>)
    ensures Text(a + b) == Text(a) + Text(b)
    decreases |b|
  {
    if |b| == 0 {
      assert a + b == a;
    } else {
      assert (a + b)[..|a + b| - 1] == a + b[..|b| - 1];
      TextAppend(a, b[..|b| - 1]);
    }
  }

  /** Every chunk of `chunks` was written in `fg` on `bg`. */
  predicate AllIn(chunks: seq<Chunk>, fg: Color, bg: Color) {
    forall i :: 0 <= i < |chunks| ==> chunks[i].fg == fg && chunks[i].bg == bg
  }

  /** `Console.ForegroundColor = col`. */
  function SetForeground(c: Console, col: Color): (r: Console)
    ensures r.fg == col && r.bg == c.bg && r.output == c.output && r.input == c.input
  {
    c.(fg := col)
  }

  /** `Console.BackgroundColor = col`. */
  function SetBackground(c: Console, col: Color): (r: Console)
    ensures r.bg == col && r.fg == c.fg && r.output == c.output && r.input == c.input
  {
    c.(bg := col)
  }

  /** `Console.Write(s)`: the text goes out in the current colours. */
  function Write(c: Console, s: string): Console
  {
    c.(output := c.output + [Chunk(s, c.fg, c.bg)])
  }

  /** `Console.WriteLine()`: the line terminator alone. */
  function WriteNewLine(c: Console): Console
  {
    Write(c, NewLine)
  }

  /** `Console.WriteLine(s)`: the text and the line terminator as one write,
      in the current colours. */
  function WriteLine(c: Console, s: string): Console
  {
    Write(c, s + NewLine)
  }

  /** `Console.ReadLine()`: the next line, or `None` (null) at the end of the
      stream. The stream is a closed one (a redirected file or pipe), which
      stays at its end; an interactive console that returns null and then
      more lines is not modelled. */
  function ReadRaw(c: Console): (r: Read<Option<string>>)
    ensures r.console.fg == c.fg && r.console.bg == c.bg && r.console.output == c.output
    ensures |c.input| == 0 <==> r.value.None?
    ensures |c.input| == 0 ==> r.console.input == c.input
    ensures |c.input| > 0 ==> r.value == Some(c.input[0]) && r.console.input == c.input[1..]
  {
    if |c.input| == 0 then Read(None, c)
    else Read(Some(c.input[0]), c.(input := c.input[1..]))
  }
}

=== FILE: dump.dfy ===
/** `Dump`: print a value's text on a line of its own and, when the value is
    an enumerable other than a string, dump each non-null element in turn.

    Values are a finite tree, so the unbounded recursion the source allows on
    a container that holds itself cannot be expressed. */
module Dumping {
  import opened Wrappers
  import opened ConsoleState

  /** A value handed to `Dump`: a string (enumerable, but never traversed),
      any other non-enumerable object, or an enumerable with its elements in
      enumeration order, where an element may be null. Each carries the text
      its `ToString()` returns. */
  datatype Value =
    | Str(s: string)
    | Leaf(text: string)
    | Seq(text: string, items: seq<Option<Value>>)

  /** `t.ToString()`: a string is its own text. */
  function Shown(v: Value): string {
    match v
    case Str(s) => s
    case Leaf(t) => t
    case Seq(t, _) => t
  }

  /* ---------- the reference pre-order listing ---------- */

  /** The lines a dump of `v` should print, in order: the value's own text,
      then the listing of every non-null element. */
  function Lines(v: Value): seq<string>
    decreases v, 1
  {
    match v
    case Seq(t, _) => [t] + ItemLines(v, 0)
    case _ => [Shown(v)]
  }

  /** The listings of the elements of the enumerable `v` from position `i`
      on, one after another; a null element contributes nothing. */
  function ItemLines(v: Value, i: nat): seq<string>
    requires v.Seq? && i <= |v.items|
    decreases v, 0, |v.items| - i
  {
    if i == |v.items| then []
    else
      var own := match v.items[i] case None => [] case Some(x) => Lines(x);
      own + ItemLines(v, i + 1)
  }

  /* ---------- the console operation ---------- */

  /** `Dump(t)`: `Console.WriteLine(t.ToString())`, then, unless `t` is a
      string or is not enumerable, a dump of every non-null element. */
  function Dump(c: Console, v: Value): (r: Console)
    ensures r.fg == c.fg && r.bg == c.bg && r.input == c.input
    decreases v, 1
  {
    var shown := WriteLine(c, Shown(v));
    match v
    case Seq(_, _) => DumpItems(shown, v, 0)
    case _ => shown
  }

  /** The `foreach` of `Dump` from element `i` on: null elements are skipped. */
  function DumpItems(c: Console, v: Value, i: nat): (r: Console)
    requires v.Seq? && i <= |v.items|
    ensures r.fg == c.fg && r.bg == c.bg && r.input == c.input
    decreases v, 0, |v.items| - i
  {
    if i == |v.items| then c
    else
      var next := match v.items[i] case None => c case Some(x) => Dump(c, x);
      DumpItems(next, v, i + 1)
  }

  /** Printing each of `ls` on a line of its own in `fg` on `bg`. */
  function LineWrites(ls: seq<string>, fg: Color, bg: Color): (w: seq<Chunk>)
    ensures |w| == |ls|
    ensures forall i :: 0 <= i < |ls| ==> w[i] == Chunk(ls[i] + NewLine, fg, bg)
  {
    if |ls| == 0 then [] else [Chunk(ls[0] + NewLine, fg, bg)] + LineWrites(ls[1..], fg, bg)
  }

  lemma {:induction false} LineWritesAppend(a: seq<string>, b: seq<string>, fg: Color, bg: Color)
    ensures LineWrites(a + b, fg, bg) == LineWrites(a, fg, bg) + LineWrites(b, fg, bg)
    decreases |a|
  {
    if |a| > 0 {
      assert (a + b)[1..] == a[1..] + b;
      LineWritesAppend(a[1..], b, fg, bg);
    } else {
      assert a + b == b;
    }
  }

  /** `Dump` prints exactly the pre-order listing of the value, one line per
      entry, in the console's current colours, and changes nothing else. */
  lemma {:induction false} DumpWritesLines(c: Console, v: Value)
    ensures Dump(c, v) == c.(output := c.output + LineWrites(Lines(v), c.fg, c.bg))
    decreases v, 1
  {
    var shown := WriteLine(c, Shown(v));
    assert shown == c.(output := c.output + LineWrites([Shown(v)], c.fg, c.bg));
    if v.Seq? {
      var rest := ItemLines(v, 0);
      assert Lines(v) == [Shown(v)] + rest;
      assert Dump(c, v) == DumpItems(shown, v, 0);
      DumpItemsWritesLines(shown, v, 0);
      LineWritesAppend([Shown(v)], rest, c.fg, c.bg);
      OutputAppend(c, shown, Dump(c, v), LineWrites([Shown(v)], c.fg, c.bg), LineWrites(rest, c.fg, c.bg));
    }
  }

  /** The loop over the elements prints their listings in enumeration order. */
  lemma {:induction false} DumpItemsWritesLines(c: Console, v: Value, i: nat)
    requires v.Seq? && i <= |v.items|
    ensures DumpItems(c, v, i) == c.(output := c.output + LineWrites(ItemLines(v, i), c.fg, c.bg))
    decreases v, 0, |v.items| - i
  {
    if i < |v.items| {
      match v.items[i]
      case None =>
        assert ItemLines(v, i) == ItemLines(v, i + 1);
        DumpItemsWritesLines(c, v, i + 1);
      case Some(x) =>
        DumpWritesLines(c, x);
        DumpItemsWritesLines(Dump(c, x), v, i + 1);
        ElementThenRest(c, v, i, x);
    }
  }

  /** One step of the loop over the elements: the element's dump, then the
      rest of the loop, prints the element's listing followed by the rest. */
  lemma ElementThenRest(c: Console, v: Value, i: nat, x: Value)
    requires v.Seq? && i < |v.items| && v.items[i] == Some(x)
    requires Dump(c, x) == c.(output := c.output + LineWrites(Lines(x), c.fg, c.bg))
    requires DumpItems(Dump(c, x), v, i + 1)
             == Dump(c, x).(output := Dump(c, x).output + LineWrites(ItemLines(v, i + 1), c.fg, c.bg))
    ensures DumpItems(c, v, i) == c.(output := c.output + LineWrites(ItemLines(v, i), c.fg, c.bg))
  {
    var d, rest := Dump(c, x), ItemLines(v, i + 1);
    var own, more := LineWrites(Lines(x), c.fg, c.bg), LineWrites(rest, c.fg, c.bg);
    assert DumpItems(c, v, i) == DumpItems(d, v, i + 1);
    assert ItemLines(v, i) == Lines(x) + rest;
    LineWritesAppend(Lines(x), rest, c.fg, c.bg);
    OutputAppend(c, d, DumpItems(d, v, i + 1), own, more);
  }

  /** Two appends to the output in a row are one append of both. */
  lemma OutputAppend(c: Console, d: Console, e: Console, own: seq<Chunk>, more: seq<Chunk>)
    requires d == c.(output := c.output + own) && e == d.(output := d.output + more)
    ensures e == c.(output := c.output + (own + more))
  {
    assert d.output + more == c.output + (own + more);
  }

  /* ---------- properties of the listing ---------- */

  /** Every listing is headed by the value's own text. */
  lemma ListingStartsWithValue(v: Value)
    ensures |Lines(v)| > 0 && Lines(v)[0] == Shown(v)
  {
  }

  /** A null `Nullable<T>` prints as its empty `ToString()` text: one empty
      line and nothing else. */
  lemma NullNullableIsEmptyLine(c: Console)
    ensures Dump(c, Leaf("")) == c.(output := c.output + [Chunk(NewLine, c.fg, c.bg)])
  {
    assert "" + NewLine == NewLine;
  }

  /** A string is printed on exactly one line and never broken into its
      characters. */
  lemma StringIsOneLine(c: Console, s: string)
    ensures Lines(Str(s)) == [s]
    ensures Dump(c, Str(s)) == c.(output := c.output + [Chunk(s + NewLine, c.fg, c.bg)])
  {
  }

  /** The listing from position `i` depends only on the elements from `i` on. */
  lemma {:induction false} ItemLinesOfSuffix(v1: Value, i1: nat, v2: Value, i2: nat)
    requires v1.Seq? && i1 <= |v1.items| && v2.Seq? && i2 <= |v2.items|
    requires v1.items[i1..] == v2.items[i2..]
    ensures ItemLines(v1, i1) == ItemLines(v2, i2)
    decreases |v1.items| - i1
  {
    if i1 < |v1.items| {
      assert v1.items[i1] == v1.items[i1..][0] == v2.items[i2];
      assert v1.items[i1 + 1..] == v1.items[i1..][1..];
      ItemLinesOfSuffix(v1, i1 + 1, v2, i2 + 1);
    }
  }

  /** Listings from the same position agree when the elements agree from
      there up to `k` and the rest of the listings agree from `k`. */
  lemma {:induction false} ItemLinesSamePrefix(v1: Value, v2: Value, i: nat, k: nat)
    requires v1.Seq? && v2.Seq? && i <= k <= |v1.items| && k <= |v2.items|
    requires forall j :: i <= j < k ==> v1.items[j] == v2.items[j]
    requires ItemLines(v1, k) == ItemLines(v2, k)
    ensures ItemLines(v1, i) == ItemLines(v2, i)
    decreases k - i
  {
    if i < k {
      ItemLinesSamePrefix(v1, v2, i + 1, k);
    }
  }

  /** A null element is skipped: removing it changes nothing in the dump. */
  lemma NullElementIgnored(t: string, before: seq<Option<Value>>, after: seq<Option<Value>>)
    ensures Lines(Seq(t, before + [None] + after)) == Lines(Seq(t, before + after))
  {
    var v1 := Seq(t, before + [None] + after);
    var v2 := Seq(t, before + after);
    var k := |before|;
    assert v1.items[k + 1..] == after == v2.items[k..];
    ItemLinesOfSuffix(v1, k + 1, v2, k);
    assert ItemLines(v1, k) == ItemLines(v1, k + 1);
    ItemLinesSamePrefix(v1, v2, 0, k);
  }

  /** Siblings follow completed subtrees: an element added at the end of an
      enumerable adds its entire listing after everything listed before. */
  lemma AppendedElementListedLast(t: string, items: seq<Option<Value>>, x: Value)
    ensures Lines(Seq(t, items + [Some(x)])) == Lines(Seq(t, items)) + Lines(x)
  {
    var v1 := Seq(t, items + [Some(x)]);
    var v2 := Seq(t, items);
    var k := |items|;
    assert ItemLines(v1, k) == Lines(x) + ItemLines(v1, k + 1);
    AppendedTail(v1, v2, x, 0, k);
  }

  lemma {:induction false} AppendedTail(v1: Value, v2: Value, x: Value, i: nat, k: nat)
    requires v1.Seq? && v2.Seq? && |v2.items| == k && v1.items == v2.items + [Some(x)] && i <= k
    ensures ItemLines(v1, i) == ItemLines(v2, i) + Lines(x)
    decreases k - i
  {
    if i < k {
      assert v1.items[i] == v2.items[i];
      AppendedTail(v1, v2, x, i + 1, k);
      SameHeadSameTail(v1, v2, i, x);
    } else {
      assert ItemLines(v1, k + 1) == [];
      assert ItemLines(v2, k) == [];
    }
  }

  /** Listings that agree, up to a trailing `Lines(x)`, after equal elements
      at position `i` agree before them too. */
  lemma SameHeadSameTail(v1: Value, v2: Value, i: nat, x: Value)
    requires v1.Seq? && v2.Seq? && i < |v1.items| && i < |v2.items| && v1.items[i] == v2.items[i]
    requires ItemLines(v1, i + 1) == ItemLines(v2, i + 1) + Lines(x)
    ensures ItemLines(v1, i) == ItemLines(v2, i) + Lines(x)
  {
    var own := match v1.items[i] case None => [] case Some(y) => Lines(y);
    var tail2 := ItemLines(v2, i + 1);
    assert ItemLines(v1, i) == own + (tail2 + Lines(x));
    assert ItemLines(v2, i) == own + tail2;
  }
}

=== FILE: prompting.dfy ===
/** Prompted reads: `ReadLine` (a question, an optional default shown in
    brackets, one line of input) and `ReadInt` (the same, then trim and
    parse as an integer, failing fast). */
module Prompting {
  import opened Wrappers
  import opened ConsoleState
  import opened ColorOutput
  import opened TextFormat

  /** The question `ReadLine` shows: `"{str} {prompt}"` without a default,
      `"{str} [{default}]{prompt}"` with one. */
  function PromptText(str: string, byDefault: Option<string>, prompt: string): (msg: string)
    // the text comes first and the prompt last ...
    ensures |msg| > |str| + |prompt| && msg[..|str|] == str && msg[|msg| - |prompt|..] == prompt
    // ... separated by one space, or by " [", the default and "]"
    ensures |msg| == |str| + |prompt| + (match byDefault case None => 1 case Some(d) => |d| + 3)
  {
    match byDefault
    case None => str + " " + prompt
    case Some(d) => str + " [" + d + "]" + prompt
  }

  /** Recovers the default shown in a question built for `str` and `prompt`:
      `Some(None)` when none is shown, `Some(Some(d))` when `d` is, `None` when
      `msg` is not such a question at all. */
  function ShownDefault(msg: string, str: string, prompt: string): Option<Option<string>>
  {
    var open := |str| + 2;
    var close := |msg| - |prompt| - 1;
    if msg == str + " " + prompt then Some(None)
    else if |msg| >= |str| + |prompt| + 3 && msg[..open] == str + " [" && msg[close..] == "]" + prompt
    then Some(Some(msg[open..close]))
    else None
  }

  /** The question determines the default: reading it back from the
      displayed text gives exactly the default that was shown. */
  lemma ShownDefaultOfPrompt(str: string, byDefault: Option<string>, prompt: string)
    ensures ShownDefault(PromptText(str, byDefault, prompt), str, prompt) == Some(byDefault)
  {
    var msg := PromptText(str, byDefault, prompt);
    if byDefault.Some? {
      var d := byDefault.value;
      assert |msg| == |str| + |d| + |prompt| + 3;
      assert msg != str + " " + prompt by { assert |str + " " + prompt| == |str| + |prompt| + 1; }
      assert msg == (str + " [") + d + ("]" + prompt);
      assert msg[..|str| + 2] == str + " [";
      assert msg[|msg| - |prompt| - 1..] == "]" + prompt;
      assert msg[|str| + 2..|msg| - |prompt| - 1] == d;
    }
  }

  /** Conversely, whatever `ShownDefault` accepts is the question for the
      default it reports. */
  lemma PromptOfShownDefault(msg: string, str: string, prompt: string, byDefault: Option<string>)
    requires ShownDefault(msg, str, prompt) == Some(byDefault)
    ensures PromptText(str, byDefault, prompt) == msg
  {
    if msg != str + " " + prompt {
      var open := |str| + 2;
      var close := |msg| - |prompt| - 1;
      assert msg == msg[..open] + msg[open..close] + msg[close..];
    }
  }

  /** Two different defaults never produce the same question. */
  lemma PromptTextInjective(str: string, prompt: string, d1: Option<string>, d2: Option<string>)
    requires PromptText(str, d1, prompt) == PromptText(str, d2, prompt)
    ensures d1 == d2
  {
    ShownDefaultOfPrompt(str, d1, prompt);
    ShownDefaultOfPrompt(str, d2, prompt);
  }

  /** `ReadLine(str, bydefault, prompt, foreColor, backColor)`: show the
      question without a newline, read one line, and substitute the default's
      text for an empty line when a default was given. The end of the stream
      (`None`) is passed through. */
  function ReadLine(c: Console, str: string, byDefault: Option<string>, prompt: string,
                    fg: Color, bg: Color): (r: Read<Option<string>>)
    // colour-neutral, and the question is the only output, in fg/bg
    ensures r.console.fg == c.fg && r.console.bg == c.bg
    ensures r.console.output == c.output + [Chunk(PromptText(str, byDefault, prompt), fg, bg)]
    // exactly one line is consumed, if there is one
    ensures |c.input| > 0 ==> r.console.input == c.input[1..]
    ensures |c.input| == 0 ==> r.console.input == [] && r.value.None?
    // an empty line with a default present yields the default ...
    ensures |c.input| > 0 && c.input[0] == "" && byDefault.Some? ==> r.value == byDefault
    // ... and in every other case the line is returned as read
    ensures |c.input| > 0 && !(c.input[0] == "" && byDefault.Some?) ==> r.value == Some(c.input[0])
  {
    var shown := ColorWrite(c, PromptText(str, byDefault, prompt), fg, bg, false);
    var line := ReadRaw(shown);
    if line.value == Some("") && byDefault.Some? then Read(byDefault, line.console) else line
  }

  /** Without a default, `ReadLine` returns exactly the line it consumed. */
  lemma ReadLineWithoutDefault(c: Console, str: string, prompt: string, fg: Color, bg: Color)
    ensures ReadLine(c, str, None, prompt, fg, bg).value == ReadRaw(c).value
  {
  }

  /** With a non-empty default, `ReadLine` never returns the empty string. */
  lemma ReadLineDefaultNeverEmpty(c: Console, str: string, d: string, prompt: string, fg: Color, bg: Color)
    requires d != ""
    ensures ReadLine(c, str, Some(d), prompt, fg, bg).value != Some("")
  {
  }

  /** Why `ReadInt` fails: the stream ended, so there is no line to trim
      (the source's null dereference), or the trimmed text is not an integer
      (`int.Parse`'s format and overflow errors). */
  datatype ReadIntError = EndOfInput | BadFormat

  /** `ReadInt(str, bydefault, prompt, foreColor, backColor)`: `ReadLine` with
      the default rendered as decimal text, then trim and parse. The parser is
      a parameter (`TextFormat.ParseInt32` is the invariant-culture one); its
      `None` is a failure, and there is no retry. */
  function ReadInt(c: Console, str: string, byDefault: Option<int>, prompt: string,
                   fg: Color, bg: Color, parse: string -> Option<int>): (r: Read<Result<int, ReadIntError>>)
    ensures var line := ReadLine(c, str, DefaultText(byDefault), prompt, fg, bg);
      && r.console == line.console
      && (r.value == Failure(EndOfInput) <==> line.value.None?)
      && (r.value == Failure(BadFormat) <==> line.value.Some? && parse(Trim(line.value.value)).None?)
      && (r.value.Success? ==> Some(r.value.value) == parse(Trim(line.value.value)))
  {
    var line := ReadLine(c, str, DefaultText(byDefault), prompt, fg, bg);
    match line.value
    case None => Read(Failure(EndOfInput), line.console)
    case Some(s) =>
      match parse(Trim(s))
      case None => Read(Failure(BadFormat), line.console)
      case Some(n) => Read(Success(n), line.console)
  }

  /** The text a boxed `int?` default turns into. */
  function DefaultText(byDefault: Option<int>): (r: Option<string>)
    ensures r.Some? <==> byDefault.Some?
  {
    match byDefault
    case None => None
    case Some(n) => Some(FormatInt(n))
  }

  /** Pressing enter at a `ReadInt` with a 32-bit default yields that default:
      its decimal text survives the trim and parses back to the same number. */
  lemma ReadIntEmptyLineGivesDefault(c: Console, str: string, n: int, prompt: string, fg: Color, bg: Color)
    requires Int32Min <= n <= Int32Max
    requires |c.input| > 0 && c.input[0] == ""
    ensures ReadInt(c, str, Some(n), prompt, fg, bg, ParseInt32).value == Success(n)
    ensures ReadInt(c, str, Some(n), prompt, fg, bg, ParseInt32).console.input == c.input[1..]
  {
    var t := FormatInt(n);
    assert "" + t + "" == t;
    FormatIntTrimmed(n);
    TrimOfPadded("", t, "");
    ParseFormatRoundTrip(n);
  }

  /** White space around the typed number does not matter to `ReadInt`. */
  lemma ReadIntIgnoresPadding(c: Console, str: string, byDefault: Option<int>, prompt: string,
                              fg: Color, bg: Color, parse: string -> Option<int>,
                              w1: string, m: string, w2: string)
    requires AllWhite(w1) && AllWhite(w2) && Trimmed(m) && m != ""
    requires |c.input| > 0 && c.input[0] == w1 + m + w2
    ensures ReadInt(c, str, byDefault, prompt, fg, bg, parse).value
            == (match parse(m) case Some(v) => Success(v) case None => Failure(BadFormat))
  {
    TrimOfPadded(w1, m, w2);
  }
}

=== FILE: read_valid.dfy ===
/** `ReadValidT<T>`: ask, read, convert and validate until a line is
    accepted, complaining in red after every rejected line.

    The converter that the source looks up by reflection is a parameter here
    (`convert`, a partial function), and the loop is bounded by the finite
    input: when the stream ends the model gives up with `None`. */
module ReadValid {
  import opened Wrappers
  import opened ConsoleState
  import opened ColorOutput

  /** Whether `x` passes the validator; without one (the source's
      `a => true`), everything passes. */
  predicate Passes<T>(validator: Option<T -> bool>, x: T)
    // no validator accepts everything
    ensures validator.None? ==> Passes(validator, x)
  {
    match validator
    case None => true
    case Some(f) => f(x)
  }

  /** A line is accepted when it converts and the converted value passes
      the validator. */
  predicate Accepts<T>(line: string, convert: string -> Option<T>, validator: Option<T -> bool>) {
    convert(line).Some? && Passes(validator, convert(line).value)
  }

  /** The position of the first accepted line, if any: the reference the
      retry loop is measured against. */
  function FirstAccepted<T>(lines: seq<string>, convert: string -> Option<T>, validator: Option<T -> bool>): (k: Option<nat>)
    ensures k.Some? ==> k.value < |lines| && Accepts(lines[k.value], convert, validator)
    ensures k.Some? ==> forall j :: 0 <= j < k.value ==> !Accepts(lines[j], convert, validator)
    ensures k.None? ==> forall j :: 0 <= j < |lines| ==> !Accepts(lines[j], convert, validator)
  {
    if |lines| == 0 then None
    else if Accepts(lines[0], convert, validator) then Some(0)
    else
      match FirstAccepted(lines[1..], convert, validator)
      case None => None
      case Some(k) => Some(k + 1)
  }

  /** `n` copies of `block`, one after another. */
  function Repeat<X>(block: seq<X>, n: nat): seq<X>
  {
    if n == 0 then [] else block + Repeat(block, n - 1)
  }

  /** The question written before every read. */
  function Ask(str: string, prompt: string, fg: Color, bg: Color): seq<Chunk> {
    [Chunk(str + prompt, fg, bg)]
  }

  /** The output of one rejected round: the question, then the error
      message on a line of its own in red. */
  function Rejection(str: string, prompt: string, fg: Color, bg: Color, errorMessage: string): seq<Chunk> {
    Ask(str, prompt, fg, bg) + [Chunk(errorMessage, Red, Black), Chunk(NewLine, Red, Black)]
  }

  /** How one round of the retry loop ends. */
  datatype Round<+T> =
    | Accepted(value: T, console: Console)  // the line converted and passed: return it
    | Rejected(console: Console)            // conversion failed or the validator said no
    | Exhausted(console: Console)           // the stream had ended

  /** One round of the loop: ask, read a line, convert and validate it, and
      complain in red when it is rejected (a failed conversion is caught and
      treated like a failed validation). */
  function Attempt<T>(c: Console, str: string, validator: Option<T -> bool>, errorMessage: string,
                      prompt: string, fg: Color, bg: Color, convert: string -> Option<T>): (r: Round<T>)
    ensures |c.input| == 0 ==>
      r == Exhausted(c.(output := c.output + Ask(str, prompt, fg, bg)))
    ensures |c.input| > 0 && Accepts(c.input[0], convert, validator) ==>
      r == Accepted(convert(c.input[0]).value,
                    c.(output := c.output + Ask(str, prompt, fg, bg), input := c.input[1..]))
    ensures |c.input| > 0 && !Accepts(c.input[0], convert, validator) ==>
      r == Rejected(c.(output := c.output + Rejection(str, prompt, fg, bg, errorMessage), input := c.input[1..]))
  {
    var asked := ColorWrite(c, str + prompt, fg, bg, false);
    var line := ReadRaw(asked);
    match line.value
    case None => Exhausted(line.console)
    case Some(s) =>
      var t := convert(s);
      if t.Some? && Passes(validator, t.value) then Accepted(t.value, line.console)
      else
        var complained := WriteError(line.console, errorMessage, true);
        assert complained.output == c.output + Rejection(str, prompt, fg, bg, errorMessage);
        Rejected(complained)
  }

  /** `ReadValidT<T>(str, validator, errorMessage, prompt, foreColor, backColor)`:
      rounds are repeated until one accepts a line; the source's endless
      `while (true)` ends here when the input does. */
  function ReadValidT<T>(c: Console, str: string, validator: Option<T -> bool>, errorMessage: string,
                         prompt: string, fg: Color, bg: Color, convert: string -> Option<T>): (r: Read<Option<T>>)
    // colour-neutral, however many rounds it takes
    ensures r.console.fg == c.fg && r.console.bg == c.bg
    // only accepted values are returned
    ensures r.value.Some? ==> Passes(validator, r.value.value)
    decreases |c.input|
  {
    match Attempt(c, str, validator, errorMessage, prompt, fg, bg, convert)
    case Exhausted(final) => Read(None, final)
    case Accepted(v, final) => Read(Some(v), final)
    case Rejected(next) => ReadValidT(next, str, validator, errorMessage, prompt, fg, bg, convert)
  }

  /** The outcome `ReadValidT` must have according to the first accepted
      line: that line's value, the lines up to it consumed, and one rejected
      round of output per earlier line before the question it answered. At
      the end of the stream: nothing, all input consumed, every line
      rejected, and one last unanswered question. */
  ghost predicate FirstAcceptedOutcome<T>(c: Console, str: string, validator: Option<T -> bool>, errorMessage: string,
                                    prompt: string, fg: Color, bg: Color, convert: string -> Option<T>,
                                    r: Read<Option<T>>)
  {
    var rejected := Rejection(str, prompt, fg, bg, errorMessage);
    var ask := Ask(str, prompt, fg, bg);
    match FirstAccepted(c.input, convert, validator)
    case Some(k) =>
      && r.value == convert(c.input[k])
      && r.console == c.(output := c.output + Repeat(rejected, k) + ask, input := c.input[k + 1..])
    case None =>
      && r.value.None?
      && r.console == c.(output := c.output + Repeat(rejected, |c.input|) + ask, input := [])
  }

  /** `ReadValidT` returns the first line that converts and passes the
      validator, after writing the error message once for each line before
      it, and consumes exactly the lines up to and including that one. */
  lemma {:induction false} ReadValidTFirstAccepted<T>(c: Console, str: string, validator: Option<T -> bool>,
                                                      errorMessage: string, prompt: string, fg: Color, bg: Color,
                                                      convert: string -> Option<T>)
    ensures FirstAcceptedOutcome(c, str, validator, errorMessage, prompt, fg, bg, convert,
                                 ReadValidT(c, str, validator, errorMessage, prompt, fg, bg, convert))
    decreases |c.input|
  {
    if |c.input| == 0 {
      ExhaustedAtOnce(c, str, validator, errorMessage, prompt, fg, bg, convert);
    } else if Accepts(c.input[0], convert, validator) {
      AcceptedAtOnce(c, str, validator, errorMessage, prompt, fg, bg, convert);
    } else {
      var next := c.(output := c.output + Rejection(str, prompt, fg, bg, errorMessage), input := c.input[1..]);
      assert ReadValidT(c, str, validator, errorMessage, prompt, fg, bg, convert)
          == ReadValidT(next, str, validator, errorMessage, prompt, fg, bg, convert);
      ReadValidTFirstAccepted(next, str, validator, errorMessage, prompt, fg, bg, convert);
      RejectedRoundShifts(c, str, validator, errorMessage, prompt, fg, bg, convert,
                          ReadValidT(next, str, validator, errorMessage, prompt, fg, bg, convert));
    }
  }

  /** At the end of the stream the question is asked once and nothing is
      returned. */
  lemma ExhaustedAtOnce<T>(c: Console, str: string, validator: Option<T -> bool>, errorMessage: string,
                           prompt: string, fg: Color, bg: Color, convert: string -> Option<T>)
    requires |c.input| == 0
    ensures FirstAcceptedOutcome(c, str, validator, errorMessage, prompt, fg, bg, convert,
                                 ReadValidT(c, str, validator, errorMessage, prompt, fg, bg, convert))
  {
    assert FirstAccepted(c.input, convert, validator) == None;
    assert c.output + Repeat(Rejection(str, prompt, fg, bg, errorMessage), 0) == c.output;
  }

  /** An accepted first line is returned after a single question. */
  lemma AcceptedAtOnce<T>(c: Console, str: string, validator: Option<T -> bool>, errorMessage: string,
                          prompt: string, fg: Color, bg: Color, convert: string -> Option<T>)
    requires |c.input| > 0 && Accepts(c.input[0], convert, validator)
    ensures FirstAcceptedOutcome(c, str, validator, errorMessage, prompt, fg, bg, convert,
                                 ReadValidT(c, str, validator, errorMessage, prompt, fg, bg, convert))
  {
    assert FirstAccepted(c.input, convert, validator) == Some(0);
    assert c.output + Repeat(Rejection(str, prompt, fg, bg, errorMessage), 0) == c.output;
  }

  /** After a rejected first line, the outcome expected from the rest of the
      input, one round later, is the outcome expected from the whole. */
  lemma RejectedRoundShifts<T>(c: Console, str: string, validator: Option<T -> bool>, errorMessage: string,
                               prompt: string, fg: Color, bg: Color, convert: string -> Option<T>,
                               r: Read<Option<T>>)
    requires |c.input| > 0 && !Accepts(c.input[0], convert, validator)
    requires FirstAcceptedOutcome(
               c.(output := c.output + Rejection(str, prompt, fg, bg, errorMessage), input := c.input[1..]),
               str, validator, errorMessage, prompt, fg, bg, convert, r)
    ensures FirstAcceptedOutcome(c, str, validator, errorMessage, prompt, fg, bg, convert, r)
  {
    var rejected := Rejection(str, prompt, fg, bg, errorMessage);
    var ask := Ask(str, prompt, fg, bg);
    var next := c.(output := c.output + rejected, input := c.input[1..]);
    match FirstAccepted(c.input[1..], convert, validator)
    case Some(k) =>
      assert FirstAccepted(c.input, convert, validator) == Some(k + 1);
      assert c.input[1..][k] == c.input[k + 1];
      assert c.input[1..][k + 1..] == c.input[k + 2..];
      RepeatOneMore(c.output, rejected, k, ask);
    case None =>
      assert FirstAccepted(c.input, convert, validator) == None;
      RepeatOneMore(c.output, rejected, |c.input| - 1, ask);
  }

  /** `n` blocks after a prefix are the prefix and one block, then `n - 1` more. */
  lemma RepeatStep<X>(prefix: seq<X>, block: seq<X>, n: nat)
    requires n > 0
    ensures (prefix + block) + Repeat(block, n - 1) == prefix + Repeat(block, n)
  {
    assert Repeat(block, n) == block + Repeat(block, n - 1);
  }

  /** One block written before `n` more is `n + 1` blocks. */
  lemma RepeatOneMore<X>(prefix: seq<X>, block: seq<X>, n: nat, last: seq<X>)
    ensures (prefix + block) + Repeat(block, n) + last == prefix + Repeat(block, n + 1) + last
  {
    assert Repeat(block, n + 1) == block + Repeat(block, n);
  }

  /** Without a validator the first line that converts at all is returned. */
  lemma NoValidatorTakesFirstConvertible<T>(c: Console, str: string, errorMessage: string, prompt: string,
                                            fg: Color, bg: Color, convert: string -> Option<T>, k: nat)
    requires k < |c.input| && convert(c.input[k]).Some?
    requires forall j :: 0 <= j < k ==> convert(c.input[j]).None?
    ensures ReadValidT(c, str, None, errorMessage, prompt, fg, bg, convert).value == convert(c.input[k])
  {
    FirstAcceptedIsFirst(c.input, convert, None, k);
    ReadValidTFirstAccepted(c, str, None, errorMessage, prompt, fg, bg, convert);
  }

  /** With every line rejected there is no first accepted one. */
  lemma NoneAccepted<T>(lines: seq<string>, convert: string -> Option<T>, validator: Option<T -> bool>)
    requires forall j :: 0 <= j < |lines| ==> !Accepts(lines[j], convert, validator)
    ensures FirstAccepted(lines, convert, validator) == None
  {
  }

  /** Any accepted position that follows only rejected ones is the one
      `FirstAccepted` finds. */
  lemma FirstAcceptedIsFirst<T>(lines: seq<string>, convert: string -> Option<T>, validator: Option<T -> bool>, n: nat)
    requires n < |lines| && Accepts(lines[n], convert, validator)
    requires forall j :: 0 <= j < n ==> !Accepts(lines[j], convert, validator)
    ensures FirstAccepted(lines, convert, validator) == Some(n)
  {
  }

  /** There is a first accepted line exactly when some line is accepted. */
  lemma FirstAcceptedExists<T>(lines: seq<string>, convert: string -> Option<T>, validator: Option<T -> bool>)
    ensures FirstAccepted(lines, convert, validator).Some?
            <==> exists j :: 0 <= j < |lines| && Accepts(lines[j], convert, validator)
  {
    var k := FirstAccepted(lines, convert, validator);
    if k.Some? {
      assert Accepts(lines[k.value], convert, validator);
    }
  }

  /* ---------- the round as written, at the end of the stream ---------- */

  /** One round exactly as the source runs it: at the end of the stream
      `Console.ReadLine()` gives null and that null is handed to the
      converter anyway; `convertNull` is what the converter makes of it
      (`None` when it throws, as the numeric converters do). */
  function AttemptAsWritten<T>(c: Console, str: string, validator: Option<T -> bool>, errorMessage: string,
                               prompt: string, fg: Color, bg: Color, convert: string -> Option<T>,
                               convertNull: Option<T>): (r: Round<T>)
    // on a line that was read, it is the modelled round
    ensures |c.input| > 0 ==> r == Attempt(c, str, validator, errorMessage, prompt, fg, bg, convert)
    // colour-neutral, and at most one line is consumed
    ensures r.console.fg == c.fg && r.console.bg == c.bg
    ensures r.console.input == c.input || (|c.input| > 0 && r.console.input == c.input[1..])
  {
    var asked := ColorWrite(c, str + prompt, fg, bg, false);
    var line := ReadRaw(asked);
    var t := match line.value case None => convertNull case Some(s) => convert(s);
    if t.Some? && Passes(validator, t.value) then Accepted(t.value, line.console)
    else Rejected(WriteError(line.console, errorMessage, true))
  }

  /** `n` further rounds as written, as long as each is rejected. `Rejected`
      here means "still looping after `n` rounds": with `n == 0` no round
      runs and the console is returned as it was. */
  function SpinAsWritten<T>(c: Console, str: string, validator: Option<T -> bool>, errorMessage: string,
                            prompt: string, fg: Color, bg: Color, convert: string -> Option<T>,
                            convertNull: Option<T>, n: nat): (r: Round<T>)
    // colour-neutral however many rounds run, and never consumes more than n lines
    ensures r.console.fg == c.fg && r.console.bg == c.bg
    ensures |c.input| - n <= |r.console.input| <= |c.input|
    decreases n
  {
    if n == 0 then Rejected(c)
    else
      match AttemptAsWritten(c, str, validator, errorMessage, prompt, fg, bg, convert, convertNull)
      case Rejected(next) => SpinAsWritten(next, str, validator, errorMessage, prompt, fg, bg, convert, convertNull, n - 1)
      case other => other
  }

  /** On a closed input stream, with a converter that rejects null, the loop
      as written never ends: after any number `n` of rounds it is still
      rejecting, the input is still empty, and the question and the error
      message have been written `n` times. */
  lemma {:induction false} EndOfStreamSpins<T>(c: Console, str: string, validator: Option<T -> bool>,
                                               errorMessage: string, prompt: string, fg: Color, bg: Color,
                                               convert: string -> Option<T>, convertNull: Option<T>, n: nat)
    requires |c.input| == 0
    requires !(convertNull.Some? && Passes(validator, convertNull.value))
    ensures SpinAsWritten(c, str, validator, errorMessage, prompt, fg, bg, convert, convertNull, n)
            == Rejected(c.(output := c.output + Repeat(Rejection(str, prompt, fg, bg, errorMessage), n)))
    decreases n
  {
    var rejected := Rejection(str, prompt, fg, bg, errorMessage);
    if n == 0 {
      assert c.output + Repeat(rejected, 0) == c.output;
    } else {
      var next := c.(output := c.output + rejected);
      SpinStep(c, str, validator, errorMessage, prompt, fg, bg, convert, convertNull, n);
      EndOfStreamSpins(next, str, validator, errorMessage, prompt, fg, bg, convert, convertNull, n - 1);
      RepeatStep(c.output, rejected, n);
      assert next.(output := next.output + Repeat(rejected, n - 1)) == c.(output := c.output + Repeat(rejected, n));
    }
  }

  /** At the end of the stream, `n` rounds are one rejected round and then
      `n - 1` more. */
  lemma SpinStep<T>(c: Console, str: string, validator: Option<T -> bool>, errorMessage: string,
                    prompt: string, fg: Color, bg: Color, convert: string -> Option<T>, convertNull: Option<T>, n: nat)
    requires |c.input| == 0 && n > 0
    requires !(convertNull.Some? && Passes(validator, convertNull.value))
    ensures SpinAsWritten(c, str, validator, errorMessage, prompt, fg, bg, convert, convertNull, n)
            == SpinAsWritten(c.(output := c.output + Rejection(str, prompt, fg, bg, errorMessage)),
                             str, validator, errorMessage, prompt, fg, bg, convert, convertNull, n - 1)
  {
    RejectedAtEnd(c, str, validator, errorMessage, prompt, fg, bg, convert, convertNull);
  }

  /** One round as written at the end of the stream: null is rejected, the
      error is written, and the input is as empty as before. */
  lemma RejectedAtEnd<T>(c: Console, str: string, validator: Option<T -> bool>, errorMessage: string,
                         prompt: string, fg: Color, bg: Color, convert: string -> Option<T>, convertNull: Option<T>)
    requires |c.input| == 0
    requires !(convertNull.Some? && Passes(validator, convertNull.value))
    ensures AttemptAsWritten(c, str, validator, errorMessage, prompt, fg, bg, convert, convertNull)
            == Rejected(c.(output := c.output + Rejection(str, prompt, fg, bg, errorMessage)))
  {
    var asked := ColorWrite(c, str + prompt, fg, bg, false);
    var complained := WriteError(ReadRaw(asked).console, errorMessage, true);
    assert complained.output == c.output + Rejection(str, prompt, fg, bg, errorMessage);
  }

  /** The modelled round ends the loop at the end of the stream instead. */
  lemma EndOfStreamStops<T>(c: Console, str: string, validator: Option<T -> bool>, errorMessage: string,
                            prompt: string, fg: Color, bg: Color, convert: string -> Option<T>)
    requires |c.input| == 0
    ensures ReadValidT(c, str, validator, errorMessage, prompt, fg, bg, convert)
            == Read(None, c.(output := c.output + Ask(str, prompt, fg, bg)))
  {
  }
}

=== FILE: scenarios.dfy ===
/** Worked scenarios: particular consoles and inputs run through the
    helpers, with the outcome each one must have. */
module Scenarios {
  import opened Wrappers
  import opened ConsoleState
  import opened ColorOutput
  import opened TextFormat
  import opened Prompting
  import opened ReadValid
  import opened Dumping

  /** A gray-on-black console with nothing written yet and `input` to read. */
  function Fresh(input: seq<string>): (c: Console)
    ensures c.output == [] && c.input == input
  {
    Console(Gray, Black, [], input)
  }

  /** The question with and without a default. */
  lemma PromptShapes()
    ensures PromptText("Age", Some("30"), ": ") == "Age [30]: "
    ensures PromptText("Age", None, ": ") == "Age : "
  {
  }

  /** An empty line takes the default; a typed line beats it. */
  lemma DefaultOnlyForEmptyLine()
    ensures ReadLine(Fresh(["", "x"]), "Count", Some("7"), ": ", Yellow, Black).value == Some("7")
    ensures ReadLine(Fresh(["", "x"]), "Count", Some("7"), ": ", Yellow, Black).console.input == ["x"]
    ensures ReadLine(Fresh(["9"]), "Count", Some("7"), ": ", Yellow, Black).value == Some("9")
  {
  }

  /** The parser on the texts used below. */
  lemma SampleParses()
    ensures ParseInt32("42") == Some(42)
    ensures ParseInt32("-1") == Some(-1)
    ensures ParseInt32("5") == Some(5)
    ensures ParseInt32("abc") == None
  {
    assert DigitsValue("42") == 10 * DigitsValue("4") + 2 by { assert "42"[..1] == "4"; }
    assert "-1"[1..] == "1";
    assert !IsDigit('a');
  }

  /** `ReadInt` trims before parsing. */
  lemma ReadIntTrims()
    ensures ReadInt(Fresh([" 42 "]), "n", None, ": ", Yellow, Black, ParseInt32).value == Success(42)
  {
    assert " " + "42" + " " == " 42 ";
    TrimOfPadded(" ", "42", " ");
    SampleParses();
    var line := ReadLine(Fresh([" 42 "]), "n", DefaultText(None), ": ", Yellow, Black);
    assert line.value == Some(" 42 ");
  }

  /** `ReadInt` fails fast on text that is not a number, and on a stream at
      its end. */
  lemma ReadIntFails()
    ensures ReadInt(Fresh(["abc"]), "n", None, ": ", Yellow, Black, ParseInt32).value == Failure(BadFormat)
    ensures ReadInt(Fresh([]), "n", None, ": ", Yellow, Black, ParseInt32).value == Failure(EndOfInput)
  {
    assert "" + "abc" + "" == "abc";
    TrimOfPadded("", "abc", "");
    SampleParses();
    var line := ReadLine(Fresh(["abc"]), "n", DefaultText(None), ": ", Yellow, Black);
    assert line.value == Some("abc");
  }

  /** The validator of the retry scenario. */
  predicate Positive(v: int) {
    v > 0
  }

  /** "-1" converts but fails the validator, "abc" does not convert, and
      "5" is the first line accepted. */
  lemma FirstPositive()
    ensures FirstAccepted(["-1", "abc", "5"], ParseInt32, Some(Positive)) == Some(2)
  {
    var lines := ["-1", "abc", "5"];
    SampleParses();
    assert !Accepts(lines[0], ParseInt32, Some(Positive));
    assert !Accepts(lines[1], ParseInt32, Some(Positive));
    FirstAcceptedIsFirst(lines, ParseInt32, Some(Positive), 2);
  }

  /** Asking for a positive number with input "-1", "abc", "5": the value 5
      is returned after two rejected rounds, and all three lines are read. */
  lemma RetryUntilPositive()
    ensures var r := ReadValidT(Fresh(["-1", "abc", "5"]), "n", Some(Positive), "bad", ": ",
                                Yellow, Black, ParseInt32);
      && r.value == Some(5)
      && r.console.input == []
      && r.console.output == Repeat(Rejection("n", ": ", Yellow, Black, "bad"), 2) + Ask("n", ": ", Yellow, Black)
  {
    var c := Fresh(["-1", "abc", "5"]);
    FirstPositive();
    SampleParses();
    ReadValidTFirstAccepted(c, "n", Some(Positive), "bad", ": ", Yellow, Black, ParseInt32);
    var rejected := Rejection("n", ": ", Yellow, Black, "bad");
    assert c.input[3..] == [];
    assert c.output + Repeat(rejected, 2) == Repeat(rejected, 2);
  }

  /** A nested enumerable is listed depth first, its null element skipped and
      the string element printed whole. */
  lemma NestedListing()
    ensures Lines(Seq("outer", [Some(Leaf("1")), Some(Seq("inner", [Some(Leaf("2")), None, Some(Leaf("3"))])),
                               Some(Str("45"))]))
            == ["outer", "1", "inner", "2", "3", "45"]
  {
    var inner := Seq("inner", [Some(Leaf("2")), None, Some(Leaf("3"))]);
    assert ItemLines(inner, 3) == [];
    assert ItemLines(inner, 1) == ["3"];
    assert ItemLines(inner, 0) == ["2", "3"];
    var outer := Seq("outer", [Some(Leaf("1")), Some(inner), Some(Str("45"))]);
    assert ItemLines(outer, 3) == [];
    assert ItemLines(outer, 2) == ["45"];
    assert ItemLines(outer, 1) == ["inner", "2", "3", "45"];
  }
}

=== FILE: text_format.dfy ===
/** The .NET text primitives the prompted reads rely on: `String.Trim`, the
    decimal rendering of an `int` (`Int32.ToString()`), and `Int32.Parse`
    applied to already-trimmed text. */
module TextFormat {
  import opened Wrappers

  /** `Char.IsWhiteSpace`: the Unicode space, line and paragraph separators,
      the control characters U+0009 to U+000D, and U+0085. */
  predicate IsWhiteSpace(ch: char) {
    || ('\U{0009}' <= ch <= '\U{000D}')
    || ch == ' ' || ch == '\U{0085}' || ch == '\U{00A0}' || ch == '\U{1680}'
    || ('\U{2000}' <= ch <= '\U{200A}')
    || ch == '\U{2028}' || ch == '\U{2029}' || ch == '\U{202F}' || ch == '\U{205F}' || ch == '\U{3000}'
  }

  predicate AllWhite(s: string) {
    forall i :: 0 <= i < |s| ==> IsWhiteSpace(s[i])
  }

  /** Text that `Trim` leaves alone: empty, or starting and ending with a
      non-white character. */
  predicate Trimmed(s: string) {
    |s| == 0 || (!IsWhiteSpace(s[0]) && !IsWhiteSpace(s[|s| - 1]))
  }

  /** The number of white-space characters at the start of `s`. */
  function LeadingWhite(s: string): (k: nat)
    ensures k <= |s|
    ensures forall i :: 0 <= i < k ==> IsWhiteSpace(s[i])
    ensures k < |s| ==> !IsWhiteSpace(s[k])
  {
    if |s| == 0 || !IsWhiteSpace(s[0]) then 0 else LeadingWhite(s[1..]) + 1
  }

  /** The number of white-space characters at the end of `s`. */
  function TrailingWhite(s: string): (k: nat)
    ensures k <= |s|
    ensures forall i :: |s| - k <= i < |s| ==> IsWhiteSpace(s[i])
    ensures k < |s| ==> !IsWhiteSpace(s[|s| - 1 - k])
  {
    if |s| == 0 || !IsWhiteSpace(s[|s| - 1]) then 0 else TrailingWhite(s[..|s| - 1]) + 1
  }

  /** `String.Trim()`: `s` without its leading and trailing white space. */
  function Trim(s: string): (r: string)
    ensures Trimmed(r)
    ensures |r| <= |s|
  {
    var rest := s[LeadingWhite(s)..];
    rest[..|rest| - TrailingWhite(rest)]
  }

  lemma {:induction false} LeadingWhiteAfterPadding(w: string, t: string)
    requires AllWhite(w)
    ensures LeadingWhite(w + t) == |w| + LeadingWhite(t)
    decreases |w|
  {
    if |w| > 0 {
      assert (w + t)[1..] == w[1..] + t;
      LeadingWhiteAfterPadding(w[1..], t);
    } else {
      assert w + t == t;
    }
  }

  lemma {:induction false} TrailingWhiteBeforePadding(t: string, w: string)
    requires AllWhite(w)
    ensures TrailingWhite(t + w) == TrailingWhite(t) + |w|
    decreases |w|
  {
    if |w| > 0 {
      assert (t + w)[..|t + w| - 1] == t + w[..|w| - 1];
      TrailingWhiteBeforePadding(t, w[..|w| - 1]);
    } else {
      assert t + w == t;
    }
  }

  /** Text made only of white space trims to nothing. */
  lemma TrimAllWhite(w: string)
    requires AllWhite(w)
    ensures Trim(w) == ""
  {
    assert w == w + "";
    LeadingWhiteAfterPadding(w, "");
    assert LeadingWhite(w) == |w|;
    assert |w[|w|..]| == 0;
  }

  /** Non-empty text with no white space at its ends survives the trim of
      its padding unchanged. */
  lemma TrimOfPaddedText(w1: string, m: string, w2: string)
    requires AllWhite(w1) && AllWhite(w2) && Trimmed(m) && |m| > 0
    ensures Trim(w1 + m + w2) == m
  {
    var tail := m + w2;
    assert w1 + m + w2 == w1 + tail;
    assert LeadingWhite(tail) == 0 by { assert tail[0] == m[0]; }
    LeadingWhiteAfterPadding(w1, tail);
    var rest := (w1 + tail)[|w1|..];
    assert rest == tail;
    TrailingWhiteBeforePadding(m, w2);
    assert TrailingWhite(m) == 0;
    assert Trim(w1 + tail) == tail[..|tail| - |w2|];
    assert tail[..|tail| - |w2|] == m;
  }

  /** `Trim` removes exactly the padding: white space around text that has
      none at its ends disappears, and that text is returned unchanged. */
  lemma TrimOfPadded(w1: string, m: string, w2: string)
    requires AllWhite(w1) && AllWhite(w2) && Trimmed(m)
    ensures Trim(w1 + m + w2) == m
  {
    if |m| == 0 {
      assert w1 + m + w2 == w1 + w2;
      assert AllWhite(w1 + w2);
      TrimAllWhite(w1 + w2);
    } else {
      TrimOfPaddedText(w1, m, w2);
    }
  }

  /** Text that is already trimmed is its own trim. */
  lemma TrimIdempotent(s: string)
    ensures Trim(Trim(s)) == Trim(s)
  {
    assert "" + Trim(s) + "" == Trim(s);
    TrimOfPadded("", Trim(s), "");
  }

  /* ---------- decimal integers ---------- */

  const Int32Min: int := -0x8000_0000
  const Int32Max: int := 0x7FFF_FFFF

  predicate IsDigit(ch: char) {
    '0' <= ch <= '9'
  }

  predicate AllDigits(s: string) {
    forall i :: 0 <= i < |s| ==> IsDigit(s[i])
  }

  function DigitValue(ch: char): (d: nat)
    requires IsDigit(ch)
    ensures d < 10
  {
    (ch - '0') as nat
  }

  function DigitChar(d: nat): (ch: char)
    requires d < 10
    ensures IsDigit(ch) && DigitValue(ch) == d
  {
    ('0' as int + d) as char
  }

  /** The value of a string of decimal digits, most significant first. */
  function DigitsValue(s: string): nat
    requires AllDigits(s)
  {
    if |s| == 0 then 0 else 10 * DigitsValue(s[..|s| - 1]) + DigitValue(s[|s| - 1])
  }

  /** The decimal digits of `n` without leading zeros. */
  function FormatNat(n: nat): (s: string)
    ensures |s| > 0 && AllDigits(s)
    // no leading zero, except in "0" itself
    ensures s[0] == '0' ==> n == 0
  {
    if n < 10 then [DigitChar(n)] else FormatNat(n / 10) + [DigitChar(n % 10)]
  }

  /** `Int32.ToString()` in the invariant culture: a minus sign for negative
      values, then the decimal digits. */
  function FormatInt(n: int): (s: string)
    ensures |s| > 0
    ensures n < 0 <==> s[0] == '-'
    // canonical: no leading zero, and no "-0"
    ensures s[0] == '0' ==> n == 0
    ensures n < 0 ==> |s| > 1 && s[1] != '0'
  {
    if n < 0 then "-" + FormatNat(-n) else FormatNat(n)
  }

  /** The rendering of an integer has no white space at its ends. */
  lemma FormatIntTrimmed(n: int)
    ensures Trimmed(FormatInt(n))
  {
    var s := FormatInt(n);
    var last := s[|s| - 1];
    assert IsDigit(last) by {
      if n < 0 { assert last == FormatNat(-n)[|FormatNat(-n)| - 1]; }
    }
    assert !IsWhiteSpace(last);
    assert s[0] == '-' || IsDigit(s[0]);
  }

  /** `Int32.Parse` in the invariant culture on text with no surrounding white
      space: an optional sign, one or more digits, and a value that fits in
      32 bits; `None` for a format or overflow error. The tail of NUL
      characters that `Int32.Parse` also tolerates (and that `Trim` keeps) is
      not accepted here. */
  function ParseInt32(s: string): (r: Option<int>)
    ensures r.Some? ==> Int32Min <= r.value <= Int32Max
    ensures r.Some? ==> |s| > 0
  {
    var negative := |s| > 0 && s[0] == '-';
    var digits := if |s| > 0 && (s[0] == '-' || s[0] == '+') then s[1..] else s;
    if |digits| == 0 || !AllDigits(digits) then None
    else
      var magnitude: int := DigitsValue(digits);
      var v := if negative then -magnitude else magnitude;
      if Int32Min <= v <= Int32Max then Some(v) else None
  }

  lemma {:induction false} DigitsOfFormatNat(n: nat)
    ensures DigitsValue(FormatNat(n)) == n
  {
    if n >= 10 {
      var s := FormatNat(n);
      var q, d := n / 10, n % 10;
      assert s == FormatNat(q) + [DigitChar(d)];
      assert s[..|s| - 1] == FormatNat(q);
      DigitsOfFormatNat(q);
      assert DigitsValue(s) == 10 * q + d;
    }
  }

  /** The digits of a non-negative value parse back to it. */
  lemma ParseFormatNat(n: nat)
    requires n <= Int32Max
    ensures ParseInt32(FormatNat(n)) == Some(n)
  {
    var s := FormatNat(n);
    assert IsDigit(s[0]);
    DigitsOfFormatNat(n);
  }

  /** The minus sign and digits of a negative value parse back to it. */
  lemma ParseFormatNegative(n: int)
    requires Int32Min <= n < 0
    ensures ParseInt32(FormatInt(n)) == Some(n)
  {
    var s := FormatInt(n);
    assert s == "-" + FormatNat(-n);
    assert s[1..] == FormatNat(-n);
    DigitsOfFormatNat(-n);
  }

  /** Parsing the rendering of any 32-bit integer gives the integer back. */
  lemma ParseFormatRoundTrip(n: int)
    requires Int32Min <= n <= Int32Max
    ensures ParseInt32(FormatInt(n)) == Some(n)
  {
    if n < 0 {
      ParseFormatNegative(n);
    } else {
      ParseFormatNat(n);
    }
  }

  /* ---------- which integer a text stands for ---------- */

  /** The text `Int32.ToString()` produces: an optional minus sign, then
      digits with no leading zero, where zero is "0" and never "-0". */
  predicate CanonicalInt(s: string) {
    var digits := if |s| > 0 && s[0] == '-' then s[1..] else s;
    && |digits| > 0 && AllDigits(digits)
    && (digits[0] == '0' ==> digits == s && |s| == 1)
  }

  /** Digits that do not start with zero have a positive value. */
  lemma {:induction false} LeadingDigitPositive(d: string)
    requires |d| > 0 && AllDigits(d) && d[0] != '0'
    ensures DigitsValue(d) >= 1
    decreases |d|
  {
    if |d| > 1 {
      var front := d[..|d| - 1];
      assert front[0] == d[0];
      LeadingDigitPositive(front);
    }
  }

  /** Digits without a leading zero (or the single "0") are the rendering of
      their value. */
  lemma {:induction false} FormatOfDigits(d: string)
    requires |d| > 0 && AllDigits(d) && (d[0] == '0' ==> |d| == 1)
    ensures FormatNat(DigitsValue(d)) == d
    decreases |d|
  {
    var last := d[|d| - 1];
    var k := DigitValue(last);
    assert DigitChar(k) == last;
    if |d| == 1 {
      assert d[..0] == [];
      assert DigitsValue(d) == k;
      assert d == [last];
    } else {
      var front := d[..|d| - 1];
      assert front[0] == d[0];
      var m := DigitsValue(front);
      LeadingDigitPositive(front);
      FormatOfDigits(front);
      var n := DigitsValue(d);
      assert n == 10 * m + k;
      assert n / 10 == m && n % 10 == k;
      assert FormatNat(n) == FormatNat(m) + [DigitChar(k)];
      assert d == front + [last];
    }
  }

  /** A canonical text that parses is the rendering of the value it parses
      to: `ParseInt32` reads canonical text as the integer it renders. */
  lemma ParseCanonicalRoundTrip(s: string)
    requires CanonicalInt(s) && ParseInt32(s).Some?
    ensures FormatInt(ParseInt32(s).value) == s
  {
    if s[0] == '-' {
      var d := s[1..];
      assert d[0] != '0';
      LeadingDigitPositive(d);
      FormatOfDigits(d);
      assert s == "-" + d;
    } else {
      FormatOfDigits(s);
    }
  }

  /** Appending a zero digit in front leaves the value of digits unchanged. */
  lemma {:induction false} LeadingZeroDigits(d: string)
    requires AllDigits(d)
    ensures AllDigits("0" + d) && DigitsValue("0" + d) == DigitsValue(d)
    decreases |d|
  {
    var z := "0" + d;
    assert AllDigits(z) by {
      forall i | 0 <= i < |z| ensures IsDigit(z[i]) {
        if i > 0 { assert z[i] == d[i - 1]; }
      }
    }
    if |d| == 0 {
      assert z[..0] == [];
    } else {
      var front := d[..|d| - 1];
      assert z[..|z| - 1] == "0" + front;
      assert z[|z| - 1] == d[|d| - 1];
      LeadingZeroDigits(front);
    }
  }

  /** Leading zeros after the sign do not change the parsed value. */
  lemma ParseLeadingZero(sign: string, d: string)
    requires sign == "" || sign == "+" || sign == "-"
    requires AllDigits(d) && |d| > 0
    ensures ParseInt32(sign + "0" + d) == ParseInt32(sign + d)
  {
    LeadingZeroDigits(d);
    var s1, s2 := sign + "0" + d, sign + d;
    if sign == "" {
      assert s1 == "0" + d && s2 == d;
      assert s1[0] == '0';
    } else {
      assert s1[0] == sign[0] && s1[1..] == "0" + d;
      assert s2[0] == sign[0] && s2[1..] == d;
    }
  }

  /** A plus sign does not change the parsed value. */
  lemma ParsePlusSign(d: string)
    requires AllDigits(d) && |d| > 0
    ensures ParseInt32("+" + d) == ParseInt32(d)
  {
    var s := "+" + d;
    assert s[0] == '+' && s[1..] == d;
    assert IsDigit(d[0]);
  }

  /** "-0" is zero. */
  lemma ParseNegativeZero()
    ensures ParseInt32("-0") == Some(0)
  {
    assert "-0"[1..] == "0";
    assert DigitsValue("0") == 0 by { assert "0"[..0] == []; }
  }
}

=== FILE: wrappers.dfy ===
/** Failure-carrying wrappers used throughout the model: `Option` stands for a
    reference that may be null, `Result` for an operation that may throw. */
module Wrappers {

  /** A value or its absence (a C# `null`). */
  datatype Option<+T> = None | Some(value: T)

  /** The outcome of an operation that either returns a value or fails with an error. */
  datatype Result<+R, +E> = Success(value: R) | Failure(error: E)
}
